=== FILE: README.md ===
# Image host request logic in Dafny

This project models the request-decision logic of the `klappstuhl.me` image host, a Rocket
web service. Clients upload images through an authenticated endpoint. They get back a short
id and a public URL. Later they fetch the image from `/gallery/{id}.{ext}`, optionally at a
requested display size, or delete it.

Everything is a pure function over immutable values:

- The `images` table is a `map` from id to `Row(data, mimetype)`.
- A database error is a `fault` flag passed to the operation.
- MIME sniffing (`tree_magic::from_u8`), the dimension probe (`imagesize::blob_size`) and
  base64 encoding are the fields of `Externals`.
- The random choices of the id generator (`nanoid!`) are a `random: nat -> nat` parameter.
- A handler panic (an `unwrap` on bad input, an out-of-range index) is an explicit
  `Panicked(cause)` outcome, which Rocket answers with 500.

Modules:

- `Text`: Rust's `str::split` by one character, with `Join` as its inverse. Also `contains`
  and `starts_with`.
- `Numbers`: `str::parse::<i32>`, the `Display` rendering of an integer, and the truncating
  cast `usize as i32`.
- `Errors` (`src/errors.rs`): `CustomError`, its JSON body, the 404 catcher's Accept
  negotiation and the default catcher.
- `Hosts` (`src/hosts.rs`): the `IMG`, `WEB` and `DEF` Host-header guards.
- `Store`: the table, insert and delete.
- `Images` (`src/routes/images.rs`): the `Authorization` guard, `get_id`, size parsing,
  `gallery`, `upload` and `delete`.
- `ImageProperties`: lemmas that relate several routes. An upload is served back byte for
  byte under the URL it announces. Sizes are resolved before the canonical-filename
  redirect. Delete is idempotent and undoes an upload.

`gallery` checks things in this order:

1. Look up the key, the text before the first `.`. A miss or a query error is 404.
2. Take the extension from the stored mimetype's subtype.
3. Resolve the size. `size=N` means N by N and `size=WxH` means W by H. With no size, the
   intrinsic size is probed; a probe failure is 404.
4. Only then redirect a filename that differs from `{key}.{subtype}`.
5. Build the HTML page.

Consequences of that order, all modelled as the code does them:

- With no `size`, a probe failure is 404 even for a non-canonical filename, because the
  size is resolved before the redirect.
- A size part that is not an `i32` panics on `unwrap` (`Panicked(SizePartNotI32)`), again
  before any redirect.
- A size with three or more `x`-separated parts leaves the size unresolved. A non-canonical
  filename is still redirected. Only the canonical filename reaches `resolved_size[0]` and
  panics (see Findings).
- The redirect carries only the canonical path, not the query string. So
  `/gallery/{id}?size=200` leads to `/gallery/{id}.{subtype}`, which is served at the
  probed size rather than 200 by 200 (`ImageProperties.RedirectDropsSize`).

The doc comment of `delete` (src/routes/images.rs:327) says a missing image gives 404. The
handler ignores how many rows the `DELETE` removed and answers 200 either way. The model
follows the handler (`ImageProperties.DeleteOfMissingKeySucceeds`).

## Model

| member | source | states |
|---|---|---|
| `Text.Split` | src/routes/images.rs:120-121 | Rust's `split`: one more piece than separators, no piece holds the separator, and joining the pieces gives back the input |
| `Text.SplitJoin` | src/routes/images.rs:137 | splitting a join of separator-free pieces gives back exactly those pieces |
| `Text.FirstSegmentIsPrefix` | src/routes/images.rs:120-121 | the lookup key is the longest prefix of the filename without a `.`; a `.` or the end of the filename follows it |
| `Text.FirstSegmentOfJoined` | src/routes/images.rs:335 | `name + "." + rest` has key `name` when `name` has no `.` |
| `Text.StartsWith` | src/routes/images.rs:273 | `starts_with` holds exactly when the prefix is a sequence prefix of the string |
| `Text.Contains` | src/errors.rs:25 | `contains` is true exactly when some window of the string equals the substring |
| `Numbers.ParseI32` | src/routes/images.rs:139 | accepts exactly an optional sign and at least one digit; the value is the decimal value of the digits, negated after `-`, and the parse fails iff that value leaves the `i32` range |
| `Numbers.ParseI32Examples` | src/routes/images.rs:139 | `+7` and `007` parse as 7; `-`, the empty string and `x7` fail |
| `Numbers.FormatInt` | src/routes/images.rs:196 | the rendering is digits, with a leading `-` exactly for negative numbers and no leading zero except for 0 itself |
| `Numbers.FormatNat` | src/routes/images.rs:196 | the decimal rendering is all digits, has no leading zero and denotes the number |
| `Numbers.ParseFormatRoundTrip` | src/routes/images.rs:139-145 | parsing the rendering of any `i32` gives the number back |
| `Numbers.WrapI32` | src/routes/images.rs:153-154 | `as i32` gives an `i32` congruent to the input mod 2^32, and the input itself when it already fits |
| `Errors.NewError` | src/errors.rs:46-48 | `CustomError::new` keeps the status and the message unchanged |
| `Errors.NewErrorResponse` | src/errors.rs:46-48 | an error made by `new` responds with that status, `error.code` and `error.message` |
| `Errors.Display` | src/errors.rs:57-59 | the text starts with `Error `, the status text is read back up to the first `:`, and exactly `: ` and the message follow the status text |
| `Errors.DisplayKeepsMessage` | src/errors.rs:57-59 | under one status text, `Error {status}: {message}` determines the message |
| `Errors.RespondTo` | src/errors.rs:63-76 | the response has the error's status, a JSON content type, and a body with `error.code` = status code and `error.message` = message |
| `Errors.RespondToInjective` | src/errors.rs:63-76 | distinct errors give distinct responses |
| `Errors.ErrorBody` | src/errors.rs:64-70 | the JSON body's `error` object holds the status as `code` and the message as `message` |
| `Errors.Member` | src/errors.rs:64-70 | a JSON member lookup finds a value exactly when some member has that name, and the value is that of the first such member |
| `Errors.NotFoundCatcher` | src/errors.rs:18-32 | HTML page iff the Accept header is missing or contains `text/html`, otherwise the JSON `404 Not Found` |
| `Errors.CatchAll` | src/errors.rs:35-38 | keeps the incoming status; the message is the reason phrase, or `Unknown Error` when there is none |
| `Errors.CatchAllResponse` | src/errors.rs:35-38 | the catcher's JSON response has the incoming status and the reason phrase, or `Unknown Error`, as `error.message` |
| `Hosts.FromRequest` | src/hosts.rs:27-38 | no host header fails with 400; a present host succeeds iff the guard admits it, otherwise it forwards |
| `Hosts.ImageAndWebDisjoint` | src/hosts.rs:19-20 | no host passes both the `IMG` and the `WEB` guard |
| `Hosts.DefaultAdmitsAll` | src/hosts.rs:21 | `DEF` succeeds for every present host |
| `Hosts.ImageGuardIsCaseSensitive` | src/hosts.rs:19 | host names are compared case-sensitively |
| `Store.Insert` | src/routes/images.rs:279-284 | insert succeeds iff there is no fault and the id is new, and adds exactly that row |
| `Store.Remove` | src/routes/images.rs:337-340 | delete removes the key and keeps every other row |
| `Images.Authorize` | src/routes/images.rs:55-63 | success iff the header equals the key exactly; otherwise 401, `Missing` iff the header is absent |
| `Images.IdAlphabetIsAsciiLetters` | src/routes/images.rs:209-213 | the id alphabet has 52 characters, and they are exactly the ASCII letters |
| `Images.GetId` | src/routes/images.rs:206-215 | an id is 10 characters, each drawn from the alphabet |
| `Images.GeneratedIdHasNoDot` | src/routes/images.rs:208 | ids are letters only and hold no `.` |
| `Images.MimetypeOf` | src/routes/images.rs:129 | the stored mimetype, `image/png` when the column cannot be read; a well-formed row's type starts with `image/` |
| `Images.Subtype` | src/routes/images.rs:130 | the extension is the text after the first `/` up to the next `/` or the end, and holds no `/` |
| `Images.ImageMimetypeHasSlash` | src/routes/images.rs:273 | a type that passed the `image/` check has a `/`, so its extension exists |
| `Images.SubtypeOfJoined` | src/routes/images.rs:130 | the extension of `type/subtype` is `subtype` |
| `Images.KeyOf` | src/routes/images.rs:120-121 | the key is the filename's longest prefix without a `.`, followed by a `.` or the end |
| `Images.SubtypeOfImage` | src/routes/images.rs:297 | the extension of `image/...` is the text after `image/` up to any further `/` |
| `Images.CanonicalFilename` | src/routes/images.rs:164 | `{key}.{subtype}`: a dot-free key is its own lookup key again, and the subtype follows that key's `.` |
| `Images.NotFoundMessage` | src/routes/images.rs:201-202 | ``Image with name ` ``, then the filename at its fixed position, then exactly `` ` could not be found.``; a backtick-free filename also reads back up to the next backtick |
| `Images.DimensionsMessage` | src/routes/images.rs:158 | ``Failed to get Image dimensions of ` ``, then the filename at its fixed position, then exactly `` `: `` and the probe's debug text |
| `Images.ParseSize` | src/routes/images.rs:136-148 | unresolved iff the size has two or more `x`; a parse failure iff otherwise some piece is not an `i32`; a resolved width and height are the parses of the first and last pieces, equal when there is no `x` |
| `Images.ParseParts` | src/routes/images.rs:137-148 | one piece is a square, two are width then height, more are unresolved; a failure iff some piece of at most two is not an `i32` |
| `Images.ResolveSize` | src/routes/images.rs:135-162 | an explicit size wins; with none, the probed size cast to `i32`, or the probe's error |
| `Images.DataUri` | src/routes/images.rs:195 | `data:`, then the mimetype, then exactly `;base64,` and the payload; a `;`-free mimetype also reads back up to the first `;` |
| `Images.ImgTag` | src/routes/images.rs:191 | the element has `src`, `width` and `height` attributes holding the source and the rendered dimensions |
| `Images.ImgAttributes` | src/routes/images.rs:191 | those three attributes occur in any text that embeds the element |
| `Images.RenderPage` | src/routes/images.rs:171-197 | the page starts with the fixed head and carries the source and the rendered width and height as `<img>` attributes |
| `Images.GalleryAsWritten` | src/routes/images.rs:96-204 | a miss or query error is 404 with the filename; the index panic happens only for a canonical filename with two or more `x` in the size |
| `Images.Gallery` | src/routes/images.rs:120-199 | 404 on a miss; an image response only for the canonical filename, carrying the stored bytes and mimetype; a redirect only for a non-canonical filename; on well-formed rows it panics only on a non-`i32` size |
| `Images.Upload` | src/routes/images.rs:222-307 | empty file 400, temp dir failure 500, non-image 400, insert failure 500 with the table untouched; succeeds iff none of those applies and the id is new; on success exactly one new row and a body with the id and `.../gallery/{id}.{subtype}`; keeps rows well formed |
| `Images.UploadBody` | src/routes/images.rs:295-298 | `{"id": "`, then the id at its fixed position, then exactly `", "url": "`, the URL and the closing `"}` |
| `Images.DeleteBody` | src/routes/images.rs:348 | `{"id": "`, then the id at its fixed position, then only the closing `"}`, whatever characters the id holds |
| `Images.Delete` | src/routes/images.rs:309-357 | a fault gives 500 and no change; otherwise 200 with the key before the first `.`, that key gone, the other rows kept |
| `ImageProperties.SquareSize` | src/routes/images.rs:138-142 | `size=N` resolves to (N, N) |
| `ImageProperties.RectangleSize` | src/routes/images.rs:143-148 | `size=WxH` resolves to (W, H) with no aspect check |
| `ImageProperties.SquareExample` | src/routes/images.rs:140 | `512` resolves to (512, 512) |
| `ImageProperties.RectangleExample` | src/routes/images.rs:143-147 | `800x600` resolves to (800, 600) |
| `ImageProperties.NonNumericExample` | src/routes/images.rs:144 | `abcx100` fails the `i32` parse |
| `ImageProperties.ThreePartExample` | src/routes/images.rs:137-148 | `1x2x3` leaves the size unresolved |
| `ImageProperties.GalleryAgreesWithAsWritten` | src/routes/images.rs:143-196 | the corrected gallery answers as written everywhere except the unresolved-size panic, which becomes 400 |
| `ImageProperties.MissingKeyIsNotFound` | src/routes/images.rs:201-202 | an unknown key is 404 with or without an extension |
| `ImageProperties.NonCanonicalRedirects` | src/routes/images.rs:164-169 | with a usable size, a non-canonical filename redirects to `/gallery/{key}.{subtype}` |
| `ImageProperties.BareAndWrongExtensionRedirect` | src/routes/images.rs:164-169 | `X` and `X.wrong` both redirect to the canonical `X.subtype` |
| `ImageProperties.RedirectDropsSize` | src/routes/images.rs:164-169 | a bare id asked for at an explicit size redirects to `{key}.{subtype}` without the query, and that request is served at the probed size |
| `ImageProperties.ProbeFailureBeforeRedirect` | src/routes/images.rs:150-169 | with no size, a probe failure is 404 even for a non-canonical filename |
| `ImageProperties.BadSizeNumberBeforeRedirect` | src/routes/images.rs:135-169 | a non-`i32` size part panics before any redirect |
| `ImageProperties.CanonicalRequestAsWritten` | src/routes/images.rs:164-199 | as written, a canonical request with a resolved size gets the stored bytes, mimetype and page |
| `ImageProperties.CanonicalRequestIsServed` | src/routes/images.rs:171-199 | a canonical request gets the stored bytes, the stored mimetype, and the page with the `data:` URI at the resolved size |
| `ImageProperties.UnreadableMimetypeIsPng` | src/routes/images.rs:129 | an unreadable mimetype column is served as `image/png` under `{key}.png` |
| `ImageProperties.PngSubtype` | src/routes/images.rs:129-130 | the default type `image/png` has extension `png` |
| `ImageProperties.PngFilenameIsCanonical` | src/routes/images.rs:164 | `{key}.png` is the canonical filename of a key under `image/png` |
| `ImageProperties.SizeOverridesProbe` | src/routes/images.rs:143-196 | an explicit `WxH` sets the page's width and height whatever the intrinsic size |
| `ImageProperties.UploadSucceeded` | src/routes/images.rs:279-297 | after a successful upload the new row is under the id with the sniffed mimetype, and the reply names the id and URL |
| `ImageProperties.UploadedName` | src/routes/images.rs:296-297 | the filename `{id}.{ext}` in the announced URL has the generated id as its key |
| `ImageProperties.KeyOfDotted` | src/routes/images.rs:120-121 | `name.ext` has key `name` when `name` has no `.` |
| `ImageProperties.UploadUrlIsCanonical` | src/routes/images.rs:296-297 | the announced URL's filename has the id as key and is the new row's canonical filename |
| `ImageProperties.UploadedImageIsServed` | src/routes/images.rs:164-199 | after an upload, its filename serves the uploaded bytes and mimetype without a redirect, or 404 if the probe fails |
| `ImageProperties.UploadedImageIsServedAtSize` | src/routes/images.rs:143-199 | the same with `size=WxH`, at exactly W by H |
| `ImageProperties.DeleteThenGalleryNotFound` | src/routes/images.rs:335-351 | after a delete, every filename with that key is 404 |
| `ImageProperties.DeleteIsIdempotent` | src/routes/images.rs:335-351 | deleting twice equals deleting once |
| `ImageProperties.DeleteOfMissingKeySucceeds` | src/routes/images.rs:342-351 | deleting an absent key answers 200 with the key and changes nothing |
| `ImageProperties.DeleteUndoesUpload` | src/routes/images.rs:279-340 | deleting the returned id restores the table before the upload |
| `ImageProperties.UnresolvedSizeOnCanonicalFilename` | src/routes/images.rs:143-196 | for a canonical request with two or more `x` in the size: the code as written panics, the corrected gallery answers 400 |
| `ImageProperties.ThreePartSizeCounterexample` | src/routes/images.rs:196 | `GET /gallery/abcdefghij.png?size=1x2x3` on a stored PNG panics as written and is 400 when corrected |

## Left out

- Temporary-file staging (src/routes/images.rs:257, 266-269, 288-290) is filesystem I/O and is not modelled. It covers `persist_to(...).expect`, `read(...).unwrap`, the best-effort `remove_file`, and the `unwrap`s on the client-declared content type's extension. The sniffed bytes are the uploaded bytes. Only the temp-directory failure (500) is kept, as a flag.
- `row.try_get("image_data").unwrap()` (src/routes/images.rs:131) is not modelled: stored bytes are always readable.
- Rocket response mechanics are not modelled. That includes `ImageResponse::respond_to`, which streams the bytes over the sized HTML body, and the status `Redirect::to` uses. It also includes route ranks, the `format =` constraints on routes, and the order in which request guards run. The gallery outcome is the triple (bytes, HTML, mimetype), a redirect location, an error, or a panic.
- Rocket's status reason table and the `Display` of a `Status` are not visible here. `Errors.CatchAll` takes the reason phrase as a parameter, and `Errors.Display` takes the status text as a parameter.
- The 404 catcher's `NamedFile::open(...).expect` is filesystem I/O. The HTML variant only names the page.
- `AUTH_KEY` is read from the environment (src/routes/images.rs:39). It is a parameter of `Images.Authorize`.
- JSON escaping by `serde_json` is not modelled. The error body is a structured `Json` value. The upload and delete bodies are the handlers' `format!` strings, which do no escaping either.
- The HTML page's indentation and line breaks are not modelled. `PageHead` and `PageTail` hold the markup without that whitespace. The `<img>` element is exact.
- Images.GetId: models which characters an id can contain and its length only. It does not model nanoid's randomness, uniformity or collision resistance. The model picks characters as `random(i) % 52`.
- Numbers.WrapI32: takes any natural number, not only values below 2^64 (`usize`).
- The `index` route (src/routes/images.rs:66-69) returns a constant string. It and the static pages and process bootstrap in src/main.rs, src/routes/main.rs and src/domain/main.rs are not part of this model.
- Async execution, connection pooling and concurrency are not modelled. Each operation is one atomic step on the table.

## Findings

| source | as written | input that shows it | evidently intended | confidence | as-written member | corrected member |
|---|---|---|---|---|---|---|
| src/routes/images.rs:143-196 | A size with two or more `x` pushes nothing into `resolved_size`. For the canonical filename, building the page then indexes `resolved_size[0]` and panics, so the answer is a 500. | `GET /gallery/abcdefghij.png?size=1x2x3` with row `abcdefghij` of type `image/png` | reject the malformed size with a 400 error, as the other size shapes are handled explicitly | not executed; medium | `Images.GalleryAsWritten`, `ImageProperties.ThreePartSizeCounterexample` | `Images.Gallery`, `ImageProperties.UnresolvedSizeOnCanonicalFilename` |

=== FILE: errors.dfy ===
/** The error type every handler answers with, its JSON rendering, and the two
    catchers: the 404 catcher that negotiates between the HTML page and JSON,
    and the default catcher for every other status. */
module Errors {
  import opened Wrappers
  import opened Text

  const StatusOk: int := 200
  const BadRequest: int := 400
  const Unauthorized: int := 401
  const NotFound: int := 404
  const InternalServerError: int := 500

  /** An HTTP status together with a human-readable message. */
  datatype CustomError = CustomError(status: int, message: string)

  /** `CustomError::new`: keeps the status and the message as given. */
  function NewError(status: int, message: string): (e: CustomError)
    ensures e.status == status && e.message == message
  {
    CustomError(status, message)
  }

  /** `Display for CustomError`: `Error {status}: {message}`, where
      `statusText` is the `Display` rendering of the status. */
  function Display(e: CustomError, statusText: string): (r: string)
    ensures StartsWith(r, "Error ")
    ensures ':' !in statusText ==> FirstSegment(r[6..], ':') == statusText
    ensures |e.message| <= |r| && r[|r| - |e.message|..] == e.message
    ensures 6 + |statusText| <= |r| && r[6 + |statusText|..] == ": " + e.message
  {
    var open, sep := "Error ", ": ";
    Delimited(open, statusText, sep, e.message);
    open + statusText + sep + e.message
  }

  /** Two errors that render alike under the same status text carry the same
      message: the message is the text after the status text and `": "`. */
  lemma DisplayKeepsMessage(e1: CustomError, e2: CustomError, statusText: string)
    requires Display(e1, statusText) == Display(e2, statusText)
    ensures e1.message == e2.message
  {
    var prefix := "Error " + statusText + ": ";
    assert Display(e1, statusText) == prefix + e1.message;
    assert Display(e2, statusText) == prefix + e2.message;
    assert e1.message == Display(e1, statusText)[|prefix|..];
  }

  /** A JSON value, as far as the error bodies need one. */
  datatype Json = JInt(n: int) | JString(s: string) | JObject(members: seq<(string, Json)>)

  /** The value stored under `name` in the members of an object (the first one
      when a name repeats). */
  function Member(members: seq<(string, Json)>, name: string): (r: Option<Json>)
    ensures r.Some? <==> exists i :: 0 <= i < |members| && members[i].0 == name
    ensures r.Some? ==> exists i :: 0 <= i < |members| && members[i] == (name, r.value) && forall j :: 0 <= j < i ==> members[j].0 != name
    decreases |members|
  {
    if |members| == 0 then None
    else if members[0].0 == name then Some(members[0].1)
    else
      var r := Member(members[1..], name);
      assert forall i :: 1 <= i < |members| ==> members[i] == members[1..][i - 1];
      r
  }

  /** The field `name` of `j` when `j` is an object. */
  function Field(j: Json, name: string): Option<Json>
  {
    match j
    case JObject(members) => Member(members, name)
    case _ => None
  }

  /** `{"error": {"code": <status code>, "message": <message>}}`: the object
      under `error` carries the status as `code` and the message as `message`. */
  function ErrorBody(e: CustomError): (r: Json)
    ensures Field(r, "error").Some?
    ensures Field(Field(r, "error").value, "code") == Some(JInt(e.status))
    ensures Field(Field(r, "error").value, "message") == Some(JString(e.message))
  {
    var members := [("code", JInt(e.status)), ("message", JString(e.message))];
    assert "code"[0] != "message"[0];
    assert Member(members[1..], "message") == Some(JString(e.message));
    JObject([("error", JObject([("code", JInt(e.status)), ("message", JString(e.message))]))])
  }

  const JsonContentType: string := "application/json"

  /** The response Rocket sends for a `CustomError`. */
  datatype JsonResponse = JsonResponse(status: int, contentType: string, body: Json)

  /** `Responder for CustomError`: the error's status, a JSON content type, and
      a body whose `error.code` is the status code and whose `error.message` is
      the message. */
  function RespondTo(e: CustomError): (r: JsonResponse)
    ensures r.status == e.status
    ensures r.contentType == JsonContentType
    ensures Field(r.body, "error").Some?
    ensures Field(Field(r.body, "error").value, "code") == Some(JInt(e.status))
    ensures Field(Field(r.body, "error").value, "message") == Some(JString(e.message))
  {
    JsonResponse(e.status, JsonContentType, ErrorBody(e))
  }

  /** Two errors with the same rendered response are the same error. */
  lemma RespondToInjective(e1: CustomError, e2: CustomError)
    requires RespondTo(e1) == RespondTo(e2)
    ensures e1 == e2
  {
    var body := RespondTo(e1).body;
    assert Field(Field(body, "error").value, "message") == Some(JString(e1.message));
  }

  /** An error built with `CustomError::new` answers with the given status and
      carries the given message as `error.message`. */
  lemma NewErrorResponse(status: int, message: string)
    ensures RespondTo(NewError(status, message)).status == status
    ensures Field(Field(RespondTo(NewError(status, message)).body, "error").value, "code") == Some(JInt(status))
    ensures Field(Field(RespondTo(NewError(status, message)).body, "error").value, "message") == Some(JString(message))
  {
  }

  const NotFoundPage: string := "templates/404.html"

  /** What the 404 catcher answers; both variants carry status 404. */
  datatype NotFoundResponse = Html(page: string) | Json(error: CustomError)

  /** The 404 catcher: a missing `Accept` header counts as `text/html`; any
      `Accept` value containing `text/html` gets the HTML page, every other one
      the JSON error `404 Not Found`. */
  function NotFoundCatcher(accept: Option<string>): (r: NotFoundResponse)
    ensures r.Html? <==> accept.None? || exists i: nat :: OccursAt(accept.value, "text/html", i)
    ensures r.Html? ==> r.page == NotFoundPage
    ensures r.Json? ==> r.error == CustomError(NotFound, "Not Found")
  {
    var contentType := match accept case Some(a) => a case None => "text/html";
    assert accept.None? ==> OccursAt(contentType, "text/html", 0);
    if Contains(contentType, "text/html") then Html(NotFoundPage)
    else Json(CustomError(NotFound, "Not Found"))
  }

  /** The default catcher: keeps the incoming status and uses its reason
      phrase as the message, or `Unknown Error` when the status has none. */
  function CatchAll(status: int, reason: Option<string>): (e: CustomError)
    ensures e.status == status
    ensures reason.Some? ==> e.message == reason.value
    ensures reason.None? ==> e.message == "Unknown Error"
  {
    match reason
    case Some(phrase) => CustomError(status, phrase)
    case None => CustomError(status, "Unknown Error")
  }

  /** The default catcher's response keeps the status and reports the reason
      phrase, or `Unknown Error`, as `error.message`. */
  lemma CatchAllResponse(status: int, reason: Option<string>)
    ensures RespondTo(CatchAll(status, reason)).status == status
    ensures RespondTo(CatchAll(status, reason)).contentType == JsonContentType
    ensures Field(Field(RespondTo(CatchAll(status, reason)).body, "error").value, "message")
      == Some(JString(if reason.Some? then reason.value else "Unknown Error"))
  {
  }
}

=== FILE: hosts.dfy ===
/** The `Host`-header request guards `IMG`, `WEB` and `DEF`. */
module Hosts {
  import opened Wrappers
  import opened Errors

  datatype Guard = IMG | WEB | DEF

  /** The host names the image guard accepts. */
  const ImageHosts: set<string> := {"cdn.klappstuhl.me", "cdn.localhost:8000", "cdn.127.0.0.1:8000"}

  /** The host names the web-site guard accepts. */
  const WebHosts: set<string> := {"www.klappstuhl.me", "klappstuhl.me", "localhost:8000", "127.0.0.1:8000"}

  /** Reference meaning of a guard: `DEF` admits every host, `IMG` and `WEB`
      exactly their listed names. */
  predicate Admits(g: Guard, host: string)
  {
    match g
    case IMG => host in ImageHosts
    case WEB => host in WebHosts
    case DEF => true
  }

  /** The guard's pattern match on the header value, alternative by alternative,
      with exact, case-sensitive string equality. */
  predicate MatchesPattern(g: Guard, host: string)
  {
    match g
    case IMG =>
      host == "cdn.klappstuhl.me" || host == "cdn.localhost:8000" || host == "cdn.127.0.0.1:8000"
    case WEB =>
      host == "www.klappstuhl.me" || host == "klappstuhl.me" || host == "localhost:8000" || host == "127.0.0.1:8000"
    case DEF => true
  }

  /** `FromRequest` of the guard `g` for the value of the `host` header:
      no header fails with 400; a header the guard admits succeeds; any other
      header forwards the request to the next route. */
  function FromRequest(g: Guard, host: Option<string>): (r: Outcome<Guard, ()>)
    ensures host.None? <==> r == Failure(BadRequest, ())
    ensures r.Success? <==> host.Some? && Admits(g, host.value)
    ensures r.Forward? <==> host.Some? && !Admits(g, host.value)
    ensures r.Success? ==> r.value == g
  {
    match host
    case None => Failure(BadRequest, ())
    case Some(h) => if MatchesPattern(g, h) then Success(g) else Forward
  }

  /** No host is both an image host and a web-site host. */
  lemma ImageAndWebDisjoint(host: Option<string>)
    ensures !(FromRequest(IMG, host).Success? && FromRequest(WEB, host).Success?)
  {
    assert ImageHosts * WebHosts == {};
  }

  /** `DEF` never forwards: it succeeds on every present host. */
  lemma DefaultAdmitsAll(host: string)
    ensures FromRequest(DEF, Some(host)) == Success(DEF)
  {
  }

  /** Matching is case-sensitive: an upper-case spelling of an image host is
      forwarded. */
  lemma ImageGuardIsCaseSensitive()
    ensures FromRequest(IMG, Some("CDN.klappstuhl.me")) == Forward
  {
  }
}

=== FILE: image_properties.dfy ===
/** Properties that relate several image routes: an upload is served back
    byte for byte under the URL it announces, the size parameter and the
    canonical-filename redirect interact in the order the handler checks them,
    and delete is idempotent and undoes an upload. */
module ImageProperties {
  import opened Wrappers
  import opened Text
  import opened Numbers
  import opened Errors
  import opened Store
  import opened Images

  // ---------------------------------------------------------------------------
  // Size strings

  /** `size=N` is the square `N` by `N`. */
  lemma SquareSize(n: int)
    requires InI32(n)
    ensures ParseSize(FormatInt(n)) == Resolved(n, n)
  {
    FormatIntAvoids(n, 'x');
    ParseFormatRoundTrip(n);
  }

  /** `size=WxH` is `W` by `H`, whatever the ratio. */
  lemma RectangleSize(w: int, h: int)
    requires InI32(w) && InI32(h)
    ensures ParseSize(FormatInt(w) + "x" + FormatInt(h)) == Resolved(w, h)
  {
    FormatIntAvoids(w, 'x');
    FormatIntAvoids(h, 'x');
    var parts := [FormatInt(w), FormatInt(h)];
    assert Join(parts, 'x') == FormatInt(w) + "x" + FormatInt(h);
    SplitJoin(parts, 'x');
    ParseFormatRoundTrip(w);
    ParseFormatRoundTrip(h);
  }

  /** `size=512` is 512 by 512. */
  lemma SquareExample()
    ensures ParseSize("512") == Resolved(512, 512)
  {
    SquareSize(512);
    assert FormatInt(512) == "512";
  }

  /** `size=800x600` is 800 by 600. */
  lemma RectangleExample(size: string, width: int, height: int)
    requires size == "800x600" && width == 800 && height == 600
    ensures ParseSize(size) == Resolved(width, height)
  {
    FormatExample(width, "800");
    FormatExample(height, "600");
    SizeText(size, FormatInt(width), FormatInt(height));
    RectangleSize(width, height);
  }

  /** `800x600` is the two renderings joined by `x`. */
  lemma SizeText(size: string, w: string, h: string)
    requires size == "800x600" && w == "800" && h == "600"
    ensures size == w + "x" + h
  {
  }

  /** The rendering of a three-digit multiple of 100. */
  lemma FormatExample(n: int, digits: string)
    requires (n == 800 && digits == "800") || (n == 600 && digits == "600")
    ensures FormatInt(n) == digits
  {
    assert FormatNat(n / 100) == [digits[0]];
    assert FormatNat(n / 10) == digits[..2];
    assert FormatNat(n) == digits[..2] + [DigitChar(n % 10)];
  }

  /** `size=abcx100` has a part that is not a number. */
  lemma NonNumericExample()
    ensures ParseSize("abcx100") == SizeNotI32
  {
    var parts := ["abc", "100"];
    assert Join(parts, 'x') == "abcx100";
    SplitJoin(parts, 'x');
    assert !IsDigit("abc"[0]);
  }

  lemma CountOfThreeParts()
    ensures Count("1x2x3", 'x') == 2
  {
    assert "1x2x3"[1..] == "x2x3";
    assert "x2x3"[1..] == "2x3";
    assert "2x3"[1..] == "x3";
    assert "x3"[1..] == "3";
    assert "3"[1..] == "";
  }

  /** `size=1x2x3` has three parts and is left unresolved. */
  lemma ThreePartExample()
    ensures ParseSize("1x2x3") == Unresolved
  {
    CountOfThreeParts();
  }

  // ---------------------------------------------------------------------------
  // Gallery: lookup, order of checks, redirects

  /** The corrected handler differs from the one as written only where the
      written one indexes an unresolved size. */
  lemma GalleryAgreesWithAsWritten(table: Table, queryFault: bool, filename: string, size: Option<string>, x: Externals)
    ensures GalleryAsWritten(table, queryFault, filename, size, x) != Panicked(SizeIndexOutOfBounds) ==>
      Gallery(table, queryFault, filename, size, x) == GalleryAsWritten(table, queryFault, filename, size, x)
    ensures GalleryAsWritten(table, queryFault, filename, size, x) == Panicked(SizeIndexOutOfBounds) ==>
      Gallery(table, queryFault, filename, size, x) == Error(CustomError(BadRequest, InvalidSizeMessage))
  {
  }

  /** Every request whose key has no row is 404, whatever the extension. */
  lemma MissingKeyIsNotFound(table: Table, key: string, suffix: string, size: Option<string>, x: Externals)
    requires '.' !in key && key !in table
    ensures Gallery(table, false, key, size, x) == Error(CustomError(NotFound, NotFoundMessage(key)))
    ensures Gallery(table, false, key + "." + suffix, size, x) == Error(CustomError(NotFound, NotFoundMessage(key + "." + suffix)))
  {
    FirstSegmentOfPlain(key, '.');
    FirstSegmentOfJoined(key, '.', suffix);
    assert key + "." + suffix == key + ['.'] + suffix;
  }

  /** With a usable size, a non-canonical filename whose key has a row is
      redirected to `/gallery/{key}.{subtype}`, and no page is built. */
  lemma NonCanonicalRedirects(table: Table, filename: string, size: Option<string>, x: Externals)
    requires KeyOf(filename) in table
    requires '/' in MimetypeOf(table[KeyOf(filename)])
    requires filename != CanonicalFilename(KeyOf(filename), MimetypeOf(table[KeyOf(filename)]))
    requires ResolveSize(size, table[KeyOf(filename)].data, x.probe).Resolved?
             || ResolveSize(size, table[KeyOf(filename)].data, x.probe).Unresolved?
    ensures Gallery(table, false, filename, size, x)
            == Redirect("/gallery/" + CanonicalFilename(KeyOf(filename), MimetypeOf(table[KeyOf(filename)])))
  {
  }

  /** A bare id and an id with the wrong extension are both redirected to the
      canonical filename. */
  lemma BareAndWrongExtensionRedirect(table: Table, key: string, wrong: string, x: Externals)
    requires '.' !in key && key in table
    requires '/' in MimetypeOf(table[key])
    requires wrong != Subtype(MimetypeOf(table[key]))
    requires x.probe(table[key].data).Probed?
    ensures var canonical := "/gallery/" + CanonicalFilename(key, MimetypeOf(table[key]));
      && Gallery(table, false, key, None, x) == Redirect(canonical)
      && Gallery(table, false, key + "." + wrong, None, x) == Redirect(canonical)
  {
    var mimetype := MimetypeOf(table[key]);
    FirstSegmentOfPlain(key, '.');
    FirstSegmentOfJoined(key, '.', wrong);
    assert key + "." + wrong == key + ['.'] + wrong;
    assert key != CanonicalFilename(key, mimetype) by {
      assert |CanonicalFilename(key, mimetype)| > |key|;
    }
    assert key + "." + wrong != CanonicalFilename(key, mimetype);
    NonCanonicalRedirects(table, key, None, x);
    NonCanonicalRedirects(table, key + "." + wrong, None, x);
  }

  /** The redirect names only the canonical path and drops the query: a bare
      id asked for at an explicit `size` is redirected to `{key}.{subtype}`,
      and that request, now without a size, is served at the probed size. */
  lemma RedirectDropsSize(table: Table, key: string, size: string, x: Externals)
    requires '.' !in key && key in table
    requires '/' in MimetypeOf(table[key])
    requires ParseSize(size).Resolved?
    requires x.probe(table[key].data).Probed?
    ensures var canonical := CanonicalFilename(key, MimetypeOf(table[key]));
      var row, mimetype := table[key], MimetypeOf(table[key]);
      var probed := ResolveSize(None, row.data, x.probe);
      && Gallery(table, false, key, Some(size), x) == Redirect("/gallery/" + canonical)
      && probed.Resolved?
      && Gallery(table, false, canonical, None, x)
         == ImageResponse(row.data, RenderPage(DataUri(mimetype, x.base64(row.data)), probed.width, probed.height), mimetype)
  {
    var mimetype := MimetypeOf(table[key]);
    var canonical := CanonicalFilename(key, mimetype);
    FirstSegmentOfPlain(key, '.');
    assert key != canonical by {
      assert |canonical| > |key|;
    }
    NonCanonicalRedirects(table, key, Some(size), x);
    assert KeyOf(canonical) == key;
    CanonicalRequestIsServed(table, canonical, None, x);
  }

  /** The size is resolved before the filename is compared: with no `size`, a
      probe failure is 404 even for a filename that would have been redirected. */
  lemma ProbeFailureBeforeRedirect(table: Table, filename: string, x: Externals)
    requires KeyOf(filename) in table
    requires '/' in MimetypeOf(table[KeyOf(filename)])
    requires x.probe(table[KeyOf(filename)].data).ProbeError?
    ensures Gallery(table, false, filename, None, x)
            == Error(CustomError(NotFound, DimensionsMessage(filename, x.probe(table[KeyOf(filename)].data).debug)))
  {
  }

  /** Likewise a size part that is not an `i32` panics before the redirect. */
  lemma BadSizeNumberBeforeRedirect(table: Table, filename: string, size: string, x: Externals)
    requires KeyOf(filename) in table
    requires '/' in MimetypeOf(table[KeyOf(filename)])
    requires ParseSize(size) == SizeNotI32
    ensures Gallery(table, false, filename, Some(size), x) == Panicked(SizePartNotI32)
  {
  }

  /** A canonical request with a resolved size is answered with the stored
      bytes, the stored mimetype and the page at exactly that size. */
  lemma CanonicalRequestIsServed(table: Table, filename: string, size: Option<string>, x: Externals)
    requires KeyOf(filename) in table
    requires '/' in MimetypeOf(table[KeyOf(filename)])
    requires filename == CanonicalFilename(KeyOf(filename), MimetypeOf(table[KeyOf(filename)]))
    requires ResolveSize(size, table[KeyOf(filename)].data, x.probe).Resolved?
    ensures var row := table[KeyOf(filename)];
      var mimetype := MimetypeOf(row);
      var resolved := ResolveSize(size, row.data, x.probe);
      Gallery(table, false, filename, size, x)
      == ImageResponse(row.data, RenderPage(DataUri(mimetype, x.base64(row.data)), resolved.width, resolved.height), mimetype)
  {
    CanonicalRequestAsWritten(table, filename, size, x);
    GalleryAgreesWithAsWritten(table, false, filename, size, x);
  }

  lemma CanonicalRequestAsWritten(table: Table, filename: string, size: Option<string>, x: Externals)
    requires KeyOf(filename) in table
    requires '/' in MimetypeOf(table[KeyOf(filename)])
    requires filename == CanonicalFilename(KeyOf(filename), MimetypeOf(table[KeyOf(filename)]))
    requires ResolveSize(size, table[KeyOf(filename)].data, x.probe).Resolved?
    ensures var row := table[KeyOf(filename)];
      var mimetype := MimetypeOf(row);
      var resolved := ResolveSize(size, row.data, x.probe);
      GalleryAsWritten(table, false, filename, size, x)
      == ImageResponse(row.data, RenderPage(DataUri(mimetype, x.base64(row.data)), resolved.width, resolved.height), mimetype)
  {
    var name := KeyOf(filename);
    var row := table[name];
    var mimetype := MimetypeOf(row);
    var resolved := ResolveSize(size, row.data, x.probe);
    assert !resolved.SizeNotI32? && !resolved.ProbeFailed? && !resolved.Unresolved?;
  }

  /** A row whose mimetype column cannot be read is served as `image/png`
      under `{key}.png`. */
  lemma UnreadableMimetypeIsPng(table: Table, key: string, filename: string, size: Option<string>, x: Externals)
    requires '.' !in key && key in table
    requires table[key].mimetype.None?
    requires filename == key + ".png"
    requires ResolveSize(size, table[key].data, x.probe).Resolved?
    ensures Gallery(table, false, filename, size, x).ImageResponse?
    ensures Gallery(table, false, filename, size, x).contentType == "image/png"
  {
    PngFilenameIsCanonical(key, filename, "image/png");
    assert MimetypeOf(table[key]) == "image/png";
    CanonicalRequestIsServed(table, filename, size, x);
  }

  lemma PngFilenameIsCanonical(key: string, filename: string, png: string)
    requires '.' !in key
    requires filename == key + ".png" && png == "image/png"
    ensures KeyOf(filename) == key
    ensures '/' in png && filename == CanonicalFilename(key, png)
  {
    PngSubtype(png);
    assert filename == key + "." + Subtype(png);
    KeyOfDotted(key, Subtype(png));
  }

  /** An explicit `WxH` replaces the intrinsic size: the page of a canonical
      request shows exactly `W` by `H`, whatever the probe would say. */
  lemma SizeOverridesProbe(table: Table, filename: string, w: int, h: int, x: Externals)
    requires InI32(w) && InI32(h)
    requires KeyOf(filename) in table
    requires '/' in MimetypeOf(table[KeyOf(filename)])
    requires filename == CanonicalFilename(KeyOf(filename), MimetypeOf(table[KeyOf(filename)]))
    ensures var row := table[KeyOf(filename)];
      var mimetype := MimetypeOf(row);
      Gallery(table, false, filename, Some(FormatInt(w) + "x" + FormatInt(h)), x)
      == ImageResponse(row.data, RenderPage(DataUri(mimetype, x.base64(row.data)), w, h), mimetype)
  {
    RectangleSize(w, h);
    CanonicalRequestIsServed(table, filename, Some(FormatInt(w) + "x" + FormatInt(h)), x);
  }

  // ---------------------------------------------------------------------------
  // Upload round trip

  /** What a successful upload leaves behind: the new row under the generated
      id, served with the sniffed mimetype, and the reply naming both. */
  lemma UploadSucceeded(table: Table, file: Bytes, random: nat -> nat, x: Externals, tempDirFault: bool, insertFault: bool, out: (JsonReply, Table))
    requires out == Upload(table, file, random, x, tempDirFault, insertFault) && out.0.Ok?
    ensures '/' in x.sniff(file)
    ensures GetId(random) in out.1 && MimetypeOf(out.1[GetId(random)]) == x.sniff(file)
    ensures out.0.body == UploadBody(GetId(random), PublicGalleryUrl + GetId(random) + "." + Subtype(x.sniff(file)))
  {
  }

  lemma ConcatAssoc(a: string, b: string, c: string, d: string)
    ensures a + b + c + d == a + (b + c + d)
  {
  }

  /** A generated id followed by an extension has the id as its key. */
  lemma UploadedName(random: nat -> nat, ext: string)
    ensures KeyOf(GetId(random) + "." + ext) == GetId(random)
  {
    GeneratedIdHasNoDot(random);
    KeyOfDotted(GetId(random), ext);
  }

  /** The key of `name.ext` is `name` when `name` holds no dot. */
  lemma KeyOfDotted(name: string, ext: string)
    requires '.' !in name
    ensures KeyOf(name + "." + ext) == name
  {
    FirstSegmentOfJoined(name, '.', ext);
    assert name + "." + ext == name + ['.'] + ext;
  }

  /** The URL an upload announces names the new row: its filename is the
      canonical filename of the row, and its key is the generated id. */
  lemma UploadUrlIsCanonical(table: Table, file: Bytes, random: nat -> nat, x: Externals, tempDirFault: bool, insertFault: bool)
    requires Upload(table, file, random, x, tempDirFault, insertFault).0.Ok?
    ensures var (reply, after) := Upload(table, file, random, x, tempDirFault, insertFault);
      var id := GetId(random);
      var filename := id + "." + Subtype(x.sniff(file));
      && id in after
      && KeyOf(filename) == id
      && filename == CanonicalFilename(id, MimetypeOf(after[id]))
      && reply.body == UploadBody(id, PublicGalleryUrl + filename)
  {
    var out := Upload(table, file, random, x, tempDirFault, insertFault);
    UploadSucceeded(table, file, random, x, tempDirFault, insertFault, out);
    var id, ext := GetId(random), Subtype(x.sniff(file));
    UploadedName(random, ext);
    ConcatAssoc(PublicGalleryUrl, id, ".", ext);
  }

  /** An uploaded image is served back from the announced filename, byte for
      byte and with the sniffed mimetype, without a redirect: at its probed
      size when no `size` is given, or 404 when the probe fails. */
  lemma UploadedImageIsServed(table: Table, file: Bytes, random: nat -> nat, x: Externals, tempDirFault: bool, insertFault: bool)
    requires Upload(table, file, random, x, tempDirFault, insertFault).0.Ok?
    ensures var after := Upload(table, file, random, x, tempDirFault, insertFault).1;
      var mimetype := x.sniff(file);
      var filename := GetId(random) + "." + Subtype(mimetype);
      var served := Gallery(after, false, filename, None, x);
      && (x.probe(file).Probed? ==>
            served == ImageResponse(file,
                                    RenderPage(DataUri(mimetype, x.base64(file)), WrapI32(x.probe(file).width), WrapI32(x.probe(file).height)),
                                    mimetype))
      && (x.probe(file).ProbeError? ==>
            served == Error(CustomError(NotFound, DimensionsMessage(filename, x.probe(file).debug))))
  {
    UploadUrlIsCanonical(table, file, random, x, tempDirFault, insertFault);
    var after := Upload(table, file, random, x, tempDirFault, insertFault).1;
    var id := GetId(random);
    var filename := id + "." + Subtype(x.sniff(file));
    assert after[id] == Row(file, Some(x.sniff(file)));
    if x.probe(file).Probed? {
      CanonicalRequestIsServed(after, filename, None, x);
    } else {
      ProbeFailureBeforeRedirect(after, filename, x);
    }
  }

  /** The same with an explicit `size=WxH`: the uploaded bytes at `W` by `H`. */
  lemma UploadedImageIsServedAtSize(table: Table, file: Bytes, random: nat -> nat, x: Externals, tempDirFault: bool, insertFault: bool, w: int, h: int)
    requires Upload(table, file, random, x, tempDirFault, insertFault).0.Ok?
    requires InI32(w) && InI32(h)
    ensures var after := Upload(table, file, random, x, tempDirFault, insertFault).1;
      var mimetype := x.sniff(file);
      var filename := GetId(random) + "." + Subtype(mimetype);
      Gallery(after, false, filename, Some(FormatInt(w) + "x" + FormatInt(h)), x)
      == ImageResponse(file, RenderPage(DataUri(mimetype, x.base64(file)), w, h), mimetype)
  {
    UploadUrlIsCanonical(table, file, random, x, tempDirFault, insertFault);
    var after := Upload(table, file, random, x, tempDirFault, insertFault).1;
    SizeOverridesProbe(after, GetId(random) + "." + Subtype(x.sniff(file)), w, h, x);
  }

  // ---------------------------------------------------------------------------
  // Delete

  /** After a successful delete, every filename with the same key is 404. */
  lemma DeleteThenGalleryNotFound(table: Table, id: string, filename: string, size: Option<string>, x: Externals)
    requires KeyOf(filename) == KeyOf(id)
    ensures Delete(table, id, false).0 == Ok(DeleteBody(KeyOf(id)))
    ensures Gallery(Delete(table, id, false).1, false, filename, size, x)
            == Error(CustomError(NotFound, NotFoundMessage(filename)))
  {
  }

  /** Deleting twice answers and leaves the table exactly as deleting once. */
  lemma DeleteIsIdempotent(table: Table, id: string)
    ensures Delete(Delete(table, id, false).1, id, false) == Delete(table, id, false)
  {
    var once := Delete(table, id, false).1;
    assert Delete(once, id, false).1 == once;
  }

  /** Deleting a key that has no row still answers 200 with the key. */
  lemma DeleteOfMissingKeySucceeds(table: Table, id: string)
    requires KeyOf(id) !in table
    ensures Delete(table, id, false) == (Ok(DeleteBody(KeyOf(id))), table)
  {
    assert Remove(table, KeyOf(id)) == table;
  }

  /** Deleting the id an upload returned restores the table it started from. */
  lemma DeleteUndoesUpload(table: Table, file: Bytes, random: nat -> nat, x: Externals, tempDirFault: bool, insertFault: bool)
    requires Upload(table, file, random, x, tempDirFault, insertFault).0.Ok?
    ensures Delete(Upload(table, file, random, x, tempDirFault, insertFault).1, GetId(random), false).1 == table
  {
    var id := GetId(random);
    GeneratedIdHasNoDot(random);
    FirstSegmentOfPlain(id, '.');
    var after := Upload(table, file, random, x, tempDirFault, insertFault).1;
    assert Delete(after, id, false).1 == after - {id};
    assert after - {id} == table;
  }

  // ---------------------------------------------------------------------------
  // Finding: a size with more than two parts

  /** As written, a canonical request whose size has two or more `x` panics
      indexing the empty size vector; the corrected handler answers 400. */
  lemma UnresolvedSizeOnCanonicalFilename(table: Table, filename: string, size: string, x: Externals)
    requires KeyOf(filename) in table
    requires '/' in MimetypeOf(table[KeyOf(filename)])
    requires filename == CanonicalFilename(KeyOf(filename), MimetypeOf(table[KeyOf(filename)]))
    requires Count(size, 'x') >= 2
    ensures GalleryAsWritten(table, false, filename, Some(size), x) == Panicked(SizeIndexOutOfBounds)
    ensures Gallery(table, false, filename, Some(size), x) == Error(CustomError(BadRequest, InvalidSizeMessage))
  {
  }

  lemma PngSubtype(png: string)
    requires png == "image/png"
    ensures '/' in png && Subtype(png) == "png"
  {
    SubtypeOfJoined("image", "png");
    assert "image" + "/" + "png" == png;
  }

  /** The stored PNG `abcdefghij` is requested under its canonical name. */
  lemma ExampleIsCanonical(table: Table, filename: string)
    requires table == map["abcdefghij" := Row([137], Some("image/png"))]
    requires filename == "abcdefghij.png"
    ensures KeyOf(filename) in table
    ensures '/' in MimetypeOf(table[KeyOf(filename)])
    ensures filename == CanonicalFilename(KeyOf(filename), MimetypeOf(table[KeyOf(filename)]))
  {
    var key, png := "abcdefghij", "image/png";
    assert MimetypeOf(table[key]) == png;
    PngFilenameIsCanonical(key, filename, png);
  }

  /** A concrete instance: `GET /gallery/abcdefghij.png?size=1x2x3` for a
      stored PNG. */
  lemma ThreePartSizeCounterexample(table: Table, filename: string, size: string, x: Externals)
    requires table == map["abcdefghij" := Row([137], Some("image/png"))]
    requires filename == "abcdefghij.png" && size == "1x2x3"
    ensures GalleryAsWritten(table, false, filename, Some(size), x) == Panicked(SizeIndexOutOfBounds)
    ensures Gallery(table, false, filename, Some(size), x) == Error(CustomError(BadRequest, InvalidSizeMessage))
  {
    ExampleIsCanonical(table, filename);
    CountOfThreeParts();
    UnresolvedSizeOnCanonicalFilename(table, filename, size, x);
  }
}

=== FILE: images.dfy ===
/** The image routes: the `Authorization` guard, `gallery` (retrieval with
    size resolution and canonical-filename redirects), `get_id`, `upload` and
    `delete`. The database is a `Table`; a database error is a `fault` flag;
    MIME sniffing, the dimension probe, base64 and the random source of the id
    generator are parameters. */
module Images {
  import opened Wrappers
  import opened Text
  import opened Numbers
  import opened Errors
  import opened Store

  // ---------------------------------------------------------------------------
  // Authorization guard

  datatype AuthorizationError = Missing | Invalid

  /** `Authorization::from_request`: the `Authorization` header must equal the
      configured key exactly; a missing header and a wrong one both fail with
      401 and are told apart only by the error value. */
  function Authorize(header: Option<string>, authKey: string): (r: Outcome<string, AuthorizationError>)
    ensures r.Success? <==> header == Some(authKey)
    ensures r.Success? ==> r.value == authKey
    ensures !r.Forward?
    ensures r.Failure? ==> r.status == Unauthorized
    ensures r.Failure? ==> (r.error == Missing <==> header.None?)
  {
    match header
    case Some(key) => if key == authKey then Success(key) else Failure(Unauthorized, Invalid)
    case None => Failure(Unauthorized, Missing)
  }

  // ---------------------------------------------------------------------------
  // Collaborators the handlers call but that are not part of this model

  /** What the dimension probe (`imagesize::blob_size`) reports: the intrinsic
      size, or an error with its `Debug` rendering. */
  datatype Probe = Probed(width: nat, height: nat) | ProbeError(debug: string)

  /** MIME sniffing of a payload, the dimension probe and base64 encoding. */
  datatype Externals = Externals(sniff: Bytes -> string, probe: Bytes -> Probe, base64: Bytes -> string)

  // ---------------------------------------------------------------------------
  // Identifier generation

  const IdLength: nat := 10
  /** The `k`-th character of the handler's 52-character array: `a` to `z`
      followed by `A` to `Z`. */
  function AlphabetChar(k: nat): char
    requires k < 52
  {
    if k < 26 then ('a' as int + k) as char else ('A' as int + (k - 26)) as char
  }

  /** The alphabet of generated ids. */
  function IdAlphabet(): string
  {
    seq(52, k requires 0 <= k < 52 => AlphabetChar(k))
  }

  predicate IsAsciiLetter(c: char)
  {
    'a' <= c <= 'z' || 'A' <= c <= 'Z'
  }

  /** The id alphabet is exactly the 52 ASCII letters. */
  lemma IdAlphabetIsAsciiLetters()
    ensures |IdAlphabet()| == 52
    ensures forall c :: c in IdAlphabet() <==> IsAsciiLetter(c)
  {
    forall c | IsAsciiLetter(c)
      ensures c in IdAlphabet()
    {
      var k := if 'a' <= c <= 'z' then c as int - 'a' as int else c as int - 'A' as int + 26;
      assert IdAlphabet()[k] == c;
    }
  }

  /** `get_id`: ten characters drawn from the alphabet; `random(i)` stands for
      the random choice the generator makes for position `i`. */
  function GetId(random: nat -> nat): (id: string)
    ensures |id| == IdLength
    ensures forall i :: 0 <= i < |id| ==> id[i] in IdAlphabet()
  {
    seq(IdLength, i requires 0 <= i < IdLength => IdAlphabet()[random(i) % |IdAlphabet()|])
  }

  /** Generated ids are made of ASCII letters only, so they hold no `.`. */
  lemma GeneratedIdHasNoDot(random: nat -> nat)
    ensures forall i :: 0 <= i < |GetId(random)| ==> IsAsciiLetter(GetId(random)[i])
    ensures '.' !in GetId(random)
  {
    IdAlphabetIsAsciiLetters();
  }

  // ---------------------------------------------------------------------------
  // Mimetypes

  /** The mimetype a row is served with; an unreadable column defaults to `image/png`. */
  function MimetypeOf(row: Row): (r: string)
    ensures row.mimetype.Some? ==> r == row.mimetype.value
    ensures row.mimetype.None? ==> r == "image/png"
    ensures WellFormedRow(row) ==> StartsWith(r, "image/")
  {
    match row.mimetype
    case Some(m) => m
    case None => "image/png"
  }

  /** The canonical extension: `mimetype.split("/").collect::<Vec<&str>>()[1]`. */
  function Subtype(mimetype: string): (r: string)
    requires '/' in mimetype
    ensures '/' !in r
    ensures var after := |FirstSegment(mimetype, '/')| + 1;
      && after <= |mimetype|
      && r <= mimetype[after..]
      && (after + |r| < |mimetype| ==> mimetype[after + |r|] == '/')
  {
    SecondSegment(mimetype, '/');
    FirstSegmentIsPrefix(mimetype[|FirstSegment(mimetype, '/')| + 1..], '/');
    Split(mimetype, '/')[1]
  }

  lemma ImageMimetypeHasSlash(mimetype: string)
    requires StartsWith(mimetype, "image/")
    ensures '/' in mimetype
  {
    assert mimetype[5] == '/';
  }

  /** For `image/...` the extension is the text after `image/`, up to any
      further `/`. */
  lemma SubtypeOfImage(mimetype: string)
    requires StartsWith(mimetype, "image/")
    ensures '/' in mimetype
    ensures Subtype(mimetype) == FirstSegment(mimetype[6..], '/')
  {
    ImageMimetypeHasSlash(mimetype);
    assert mimetype == "image" + ['/'] + mimetype[6..];
    assert mimetype[..5] == "image";
    IndexOfUnique(mimetype, '/', 5);
  }

  /** The extension of `type/subtype` is `subtype` when neither part holds a `/`. */
  lemma SubtypeOfJoined(kind: string, subtype: string)
    requires '/' !in kind && '/' !in subtype
    ensures '/' in kind + "/" + subtype
    ensures Subtype(kind + "/" + subtype) == subtype
  {
    assert kind + "/" + subtype == kind + ['/'] + subtype;
    SplitCons(kind, '/', subtype);
    CountZero(subtype, '/');
  }

  // ---------------------------------------------------------------------------
  // Size resolution

  /** The display size chosen for a gallery response, or why there is none. */
  datatype Resolution =
    | Resolved(width: int, height: int)
    | Unresolved          // the size string had more than two `x`-separated parts
    | SizeNotI32          // a part of the size string is not an `i32`
    | ProbeFailed(debug: string)

  /** Some piece of a split size string is not an `i32`. */
  ghost predicate SomePartNotI32(parts: seq<string>)
  {
    exists i :: 0 <= i < |parts| && ParseI32(parts[i]).None?
  }

  /** The `size` query string: `N` is the square `N`x`N`, `WxH` is `W` by `H`
      (width parsed first), anything with two or more `x` leaves the size
      unresolved; a part that is not an `i32` is a parse failure. */
  function ParseSize(size: string): (r: Resolution)
    ensures !r.ProbeFailed?
    ensures r.Resolved? ==> InI32(r.width) && InI32(r.height)
    ensures r.Unresolved? <==> Count(size, 'x') >= 2
    ensures 'x' !in size && r.Resolved? ==> r.width == r.height
    ensures r == SizeNotI32 <==> Count(size, 'x') < 2 && SomePartNotI32(Split(size, 'x'))
    ensures r.Resolved? ==>
      && ParseI32(Split(size, 'x')[0]) == Some(r.width)
      && ParseI32(Split(size, 'x')[|Split(size, 'x')| - 1]) == Some(r.height)
  {
    CountZero(size, 'x');
    ParseParts(Split(size, 'x'))
  }

  /** The size from the pieces of the `size` string: one piece is a square,
      two are width and height, more leave the size unresolved. */
  function ParseParts(parts: seq<string>): (r: Resolution)
    requires |parts| >= 1
    ensures !r.ProbeFailed?
    ensures r.Unresolved? <==> |parts| > 2
    ensures r == SizeNotI32 <==> |parts| <= 2 && SomePartNotI32(parts)
    ensures r.Resolved? ==>
      && ParseI32(parts[0]) == Some(r.width)
      && ParseI32(parts[|parts| - 1]) == Some(r.height)
  {
    if |parts| == 1 then
      match ParseI32(parts[0])
      case Some(n) => Resolved(n, n)
      case None =>
        assert SomePartNotI32(parts) by { assert ParseI32(parts[0]).None?; }
        SizeNotI32
    else if |parts| == 2 then
      match ParseI32(parts[0])
      case None =>
        assert SomePartNotI32(parts) by { assert ParseI32(parts[0]).None?; }
        SizeNotI32
      case Some(w) =>
        match ParseI32(parts[1])
        case None =>
          assert SomePartNotI32(parts) by { assert ParseI32(parts[1]).None?; }
          SizeNotI32
        case Some(h) =>
          assert !SomePartNotI32(parts) by {
            assert forall i :: 0 <= i < |parts| ==> ParseI32(parts[i]).Some?;
          }
          Resolved(w, h)
    else
      Unresolved
  }

  /** The size of a gallery response: the `size` parameter when there is one,
      otherwise the probed intrinsic size cast to `i32`. */
  function ResolveSize(size: Option<string>, data: Bytes, probe: Bytes -> Probe): (r: Resolution)
    ensures size.Some? ==> r == ParseSize(size.value)
    ensures size.None? && probe(data).Probed? ==> r == Resolved(WrapI32(probe(data).width), WrapI32(probe(data).height))
    ensures size.None? && probe(data).ProbeError? ==> r == ProbeFailed(probe(data).debug)
  {
    match size
    case Some(s) => ParseSize(s)
    case None =>
      match probe(data)
      case Probed(w, h) => Resolved(WrapI32(w), WrapI32(h))
      case ProbeError(e) => ProbeFailed(e)
  }

  // ---------------------------------------------------------------------------
  // The HTML wrapper page

  const PageHead: string :=
    "<html><head><style>"
    + "body { background: url(\"chrome://global/skin/media/imagedoc-darknoise.png\") fixed; "
    + "display: flex; align-items: center; justify-content: center; height: 100vh; margin: 0; } "
    + "img { max-width: 100%; max-height: 100%; }"
    + "</style></head><body>"
  const PageTail: string := "</body></html>"

  /** `data:{mimetype};base64,{encoded}`: a reader recovers the mimetype as the
      text up to the first `;` and the payload as the tail. */
  function DataUri(mimetype: string, encoded: string): (r: string)
    ensures StartsWith(r, "data:")
    ensures ';' !in mimetype ==> FirstSegment(r[5..], ';') == mimetype
    ensures |encoded| <= |r| && r[|r| - |encoded|..] == encoded
    ensures 5 + |mimetype| <= |r| && r[5..5 + |mimetype|] == mimetype
    ensures r[5 + |mimetype|..] == ";base64," + encoded
  {
    var open, sep := "data:", ";base64,";
    Delimited(open, mimetype, sep, encoded);
    open + mimetype + sep + encoded
  }

  /** ` name="value"`, one attribute of an HTML element. */
  function Attribute(name: string, value: string): string
  {
    " " + name + "=\"" + value + "\""
  }

  /** The `<img>` element of the page, `<img src="…" alt="Image" width="…"
      height="…"/>`; its `src`, `width` and `height` attributes hold the
      source and the two dimensions as Rust renders them. */
  function ImgTag(src: string, width: int, height: int): (r: string)
    ensures Contains(r, Attribute("src", src))
    ensures Contains(r, Attribute("width", FormatInt(width)))
    ensures Contains(r, Attribute("height", FormatInt(height)))
  {
    var r := "<img" + Attribute("src", src) + Attribute("alt", "Image")
      + Attribute("width", FormatInt(width)) + Attribute("height", FormatInt(height)) + "/>";
    ImgAttributes([], src, FormatInt(width), FormatInt(height), []);
    assert [] + r + [] == r;
    r
  }

  /** Wherever the element sits, its three attributes occur in the text. */
  lemma ImgAttributes(head: string, src: string, w: string, h: string, tail: string)
    ensures var page := head + ("<img" + Attribute("src", src) + Attribute("alt", "Image") + Attribute("width", w) + Attribute("height", h) + "/>") + tail;
      && Contains(page, Attribute("src", src))
      && Contains(page, Attribute("width", w))
      && Contains(page, Attribute("height", h))
  {
    var s, a, wa, ha := Attribute("src", src), Attribute("alt", "Image"), Attribute("width", w), Attribute("height", h);
    Regroup(head, "<img", s, a, wa, ha, "/>", tail);
    ContainsMiddle(head + "<img", s, a + wa + ha + "/>" + tail);
    ContainsMiddle(head + "<img" + s + a, wa, ha + "/>" + tail);
    ContainsMiddle(head + "<img" + s + a + wa, ha, "/>" + tail);
  }

  /** The bracketings of one concatenation that isolate each attribute. */
  lemma Regroup(head: string, open: string, s: string, a: string, w: string, h: string, close: string, tail: string)
    ensures head + (open + s + a + w + h + close) + tail == (head + open) + s + (a + w + h + close + tail)
    ensures head + (open + s + a + w + h + close) + tail == (head + open + s + a) + w + (h + close + tail)
    ensures head + (open + s + a + w + h + close) + tail == (head + open + s + a + w) + h + (close + tail)
  {
  }

  /** The page that shows one image centred on a dark background; it carries
      the source and the two dimensions as `<img>` attributes. */
  function RenderPage(src: string, width: int, height: int): (r: string)
    ensures StartsWith(r, PageHead)
    ensures Contains(r, Attribute("src", src))
    ensures Contains(r, Attribute("width", FormatInt(width)))
    ensures Contains(r, Attribute("height", FormatInt(height)))
  {
    ImgAttributes(PageHead, src, FormatInt(width), FormatInt(height), PageTail);
    PageHead + ImgTag(src, width, height) + PageTail
  }

  // ---------------------------------------------------------------------------
  // Gallery

  /** A handler panic; Rocket answers it with 500. */
  datatype Panic =
    | MimetypeWithoutSlash  // `split("/")[1]` on a mimetype with no `/`
    | SizePartNotI32        // `parse::<i32>().unwrap()` on a size part
    | SizeIndexOutOfBounds  // `resolved_size[0]` on an empty vector

  datatype GalleryResponse =
    | ImageResponse(data: Bytes, html: string, contentType: string)
    | Redirect(location: string)
    | Error(error: CustomError)
    | Panicked(cause: Panic)

  /** ``Image with name `{filename}` could not be found.``: the filename reads
      back as the text between the first two backticks. */
  function NotFoundMessage(filename: string): (r: string)
    ensures StartsWith(r, "Image with name `")
    ensures '`' !in filename ==> FirstSegment(r[17..], '`') == filename
    ensures 17 + |filename| <= |r| && r[17..17 + |filename|] == filename
    ensures r[17 + |filename|..] == "` could not be found."
  {
    var open, sep := "Image with name `", "` could not be found.";
    Delimited(open, filename, sep, []);
    assert open + filename + sep + [] == open + filename + sep;
    open + filename + sep
  }

  /** ``Failed to get Image dimensions of `{filename}`: {debug}``: the filename
      reads back between the first two backticks, and the probe's debug text
      ends the message. */
  function DimensionsMessage(filename: string, debug: string): (r: string)
    ensures StartsWith(r, "Failed to get Image dimensions of `")
    ensures '`' !in filename ==> FirstSegment(r[35..], '`') == filename
    ensures |debug| <= |r| && r[|r| - |debug|..] == debug
    ensures 35 + |filename| <= |r| && r[35..35 + |filename|] == filename
    ensures r[35 + |filename|..] == "`: " + debug
  {
    var open, sep := "Failed to get Image dimensions of `", "`: ";
    Delimited(open, filename, sep, debug);
    open + filename + sep + debug
  }

  const InvalidSizeMessage: string := "Size must be of the form N or WxH."

  /** The lookup key of a requested filename: the text before its first `.`. */
  function KeyOf(filename: string): (r: string)
    ensures '.' !in r && r <= filename
    ensures |r| < |filename| ==> filename[|r|] == '.'
  {
    FirstSegmentIsPrefix(filename, '.');
    FirstSegment(filename, '.')
  }

  /** `{key}.{subtype}`, the one filename under which a row is served without
      a redirect: a dot-free key is its lookup key again, and the extension
      after that key's `.` is the mimetype's subtype. */
  function CanonicalFilename(key: string, mimetype: string): (r: string)
    requires '/' in mimetype
    ensures '.' !in key ==> KeyOf(r) == key && |key| < |r| && r[|key| + 1..] == Subtype(mimetype)
  {
    var r := key + "." + Subtype(mimetype);
    assert r == key + ['.'] + Subtype(mimetype);
    assert '.' !in key ==> KeyOf(r) == key by {
      if '.' !in key {
        FirstSegmentOfJoined(key, '.', Subtype(mimetype));
      }
    }
    r
  }

  /** `gallery` exactly as the handler is written: look the key up (a miss or a
      database error is 404), compute the extension, resolve the size, THEN
      redirect a non-canonical filename, and finally index the resolved size
      to build the page. */
  function GalleryAsWritten(table: Table, queryFault: bool, filename: string, size: Option<string>, x: Externals): (r: GalleryResponse)
    ensures (queryFault || KeyOf(filename) !in table) ==> r == Error(CustomError(NotFound, NotFoundMessage(filename)))
    ensures r == Panicked(SizeIndexOutOfBounds) ==>
      && size.Some? && Count(size.value, 'x') >= 2
      && KeyOf(filename) in table
      && '/' in MimetypeOf(table[KeyOf(filename)])
      && filename == CanonicalFilename(KeyOf(filename), MimetypeOf(table[KeyOf(filename)]))
  {
    var name := KeyOf(filename);
    if queryFault || name !in table then
      Error(CustomError(NotFound, NotFoundMessage(filename)))
    else
      var row := table[name];
      var contentType := MimetypeOf(row);
      if '/' !in contentType then
        Panicked(MimetypeWithoutSlash)
      else
        var resolved := ResolveSize(size, row.data, x.probe);
        if resolved.SizeNotI32? then
          Panicked(SizePartNotI32)
        else if resolved.ProbeFailed? then
          Error(CustomError(NotFound, DimensionsMessage(filename, resolved.debug)))
        else
          var finalFilename := CanonicalFilename(name, contentType);
          if filename != finalFilename then
            Redirect("/gallery/" + finalFilename)
          else if resolved.Unresolved? then
            Panicked(SizeIndexOutOfBounds)
          else
            var page := RenderPage(DataUri(contentType, x.base64(row.data)), resolved.width, resolved.height);
            ImageResponse(row.data, page, contentType)
  }

  /** `gallery` with the out-of-bounds panic on an unresolved size replaced by
      a 400 error; everything else is as written. */
  function Gallery(table: Table, queryFault: bool, filename: string, size: Option<string>, x: Externals): (r: GalleryResponse)
    ensures (queryFault || KeyOf(filename) !in table) ==> r == Error(CustomError(NotFound, NotFoundMessage(filename)))
    ensures r.ImageResponse? ==>
      && !queryFault && KeyOf(filename) in table
      && '/' in MimetypeOf(table[KeyOf(filename)])
      && filename == CanonicalFilename(KeyOf(filename), MimetypeOf(table[KeyOf(filename)]))
      && r.data == table[KeyOf(filename)].data
      && r.contentType == MimetypeOf(table[KeyOf(filename)])
    ensures r.Redirect? ==>
      && KeyOf(filename) in table
      && '/' in MimetypeOf(table[KeyOf(filename)])
      && filename != CanonicalFilename(KeyOf(filename), MimetypeOf(table[KeyOf(filename)]))
      && r.location == "/gallery/" + CanonicalFilename(KeyOf(filename), MimetypeOf(table[KeyOf(filename)]))
    ensures r.Panicked? ==> r.cause != SizeIndexOutOfBounds
    ensures r.Panicked? && WellFormedTable(table) ==> size.Some? && ParseSize(size.value) == SizeNotI32
  {
    var written := GalleryAsWritten(table, queryFault, filename, size, x);
    if written == Panicked(SizeIndexOutOfBounds) then
      Error(CustomError(BadRequest, InvalidSizeMessage))
    else
      assert WellFormedTable(table) && KeyOf(filename) in table ==> '/' in MimetypeOf(table[KeyOf(filename)]) by {
        if WellFormedTable(table) && KeyOf(filename) in table {
          ImageMimetypeHasSlash(MimetypeOf(table[KeyOf(filename)]));
        }
      }
      written
  }

  // ---------------------------------------------------------------------------
  // Upload

  const EmptyFileMessage: string := "File is empty or incomplete"
  const TempDirMessage: string := "Failed to create temp directory."
  const NotAnImageMessage: string := "The file you uploaded is not an image."
  const InsertFailedMessage: string := "Failed to insert image into database."
  const DeleteFailedMessage: string := "Failed to delete image from database."
  const PublicGalleryUrl: string := "https://cdn.klappstuhl.me/gallery/"

  /** A handler's answer: 200 with a JSON body, or an error. */
  datatype JsonReply = Ok(body: string) | Err(error: CustomError)

  /** `{"id": "<id>", "url": "<url>"}` as the handler formats it: a client
      reads the id back up to the next quote, and the url just before the
      closing `"}`. */
  function UploadBody(id: string, url: string): (r: string)
    ensures StartsWith(r, "{\"id\": \"")
    ensures '"' !in id ==> FirstSegment(r[8..], '"') == id
    ensures |url| + 2 <= |r| && r[|r| - |url| - 2..] == url + "\"}"
    ensures 8 + |id| <= |r| && r[8..8 + |id|] == id
    ensures r[8 + |id|..] == "\", \"url\": \"" + url + "\"}"
  {
    var open, middle, close := "{\"id\": \"", "\", \"url\": \"", "\"}";
    Delimited(open, id, middle, url + close);
    open + id + middle + (url + close)
  }

  /** `{"id": "<id>"}` as the handler formats it: the id reads back up to the
      next quote, and only the closing `"}` follows it. */
  function DeleteBody(id: string): (r: string)
    ensures StartsWith(r, "{\"id\": \"")
    ensures '"' !in id ==> FirstSegment(r[8..], '"') == id
    ensures |r| == |id| + 10 && r[|r| - 2..] == "\"}"
    ensures r[8..8 + |id|] == id
  {
    var open, close := "{\"id\": \"", "\"}";
    Delimited(open, id, close, []);
    assert open + id + close + [] == open + id + close;
    open + id + close
  }

  /** `upload`: reject an empty file; generate the id; fail when the temporary
      directory cannot be created; sniff the payload and reject anything that
      is not `image/...`; insert the row and answer with the id and the public
      URL `.../gallery/{id}.{subtype}`. The table changes only on success. */
  function Upload(table: Table, file: Bytes, random: nat -> nat, x: Externals, tempDirFault: bool, insertFault: bool): (out: (JsonReply, Table))
    ensures |file| == 0 ==> out == (Err(CustomError(BadRequest, EmptyFileMessage)), table)
    ensures |file| > 0 && tempDirFault ==> out == (Err(CustomError(InternalServerError, TempDirMessage)), table)
    ensures |file| > 0 && !tempDirFault && !StartsWith(x.sniff(file), "image/") ==>
      out == (Err(CustomError(BadRequest, NotAnImageMessage)), table)
    ensures |file| > 0 && !tempDirFault && StartsWith(x.sniff(file), "image/") && (insertFault || GetId(random) in table) ==>
      out == (Err(CustomError(InternalServerError, InsertFailedMessage)), table)
    ensures out.0.Ok? <==>
      |file| > 0 && !tempDirFault && StartsWith(x.sniff(file), "image/") && !insertFault && GetId(random) !in table
    ensures out.0.Err? ==> out.1 == table
    ensures out.0.Ok? ==>
      && |file| > 0 && StartsWith(x.sniff(file), "image/") && '/' in x.sniff(file)
      && GetId(random) !in table
      && out.1 == table[GetId(random) := Row(file, Some(x.sniff(file)))]
      && out.0.body == UploadBody(GetId(random), PublicGalleryUrl + GetId(random) + "." + Subtype(x.sniff(file)))
    ensures WellFormedTable(table) ==> WellFormedTable(out.1)
  {
    if |file| == 0 then
      (Err(CustomError(BadRequest, EmptyFileMessage)), table)
    else
      var id := GetId(random);
      if tempDirFault then
        (Err(CustomError(InternalServerError, TempDirMessage)), table)
      else
        var mimetype := x.sniff(file);
        if !StartsWith(mimetype, "image/") then
          (Err(CustomError(BadRequest, NotAnImageMessage)), table)
        else
          match Insert(table, id, Row(file, Some(mimetype)), insertFault)
          case None => (Err(CustomError(InternalServerError, InsertFailedMessage)), table)
          case Some(t) =>
            ImageMimetypeHasSlash(mimetype);
            (Ok(UploadBody(id, PublicGalleryUrl + id + "." + Subtype(mimetype))), t)
  }

  // ---------------------------------------------------------------------------
  // Delete

  /** `delete`: remove the row keyed by the text before the first `.`; answer
      200 with that key whether or not a row existed, or 500 when the database
      reports an error. */
  function Delete(table: Table, id: string, fault: bool): (out: (JsonReply, Table))
    ensures fault ==> out == (Err(CustomError(InternalServerError, DeleteFailedMessage)), table)
    ensures !fault ==> out.0 == Ok(DeleteBody(KeyOf(id)))
    ensures !fault ==> KeyOf(id) !in out.1 && out.1.Keys == table.Keys - {KeyOf(id)}
    ensures forall k :: k in out.1 ==> k in table && out.1[k] == table[k]
    ensures WellFormedTable(table) ==> WellFormedTable(out.1)
  {
    var key := KeyOf(id);
    if fault then (Err(CustomError(InternalServerError, DeleteFailedMessage)), table)
    else (Ok(DeleteBody(key)), Remove(table, key))
  }
}

=== FILE: numbers.dfy ===
/** Rust's 32-bit signed integers as the handlers use them: `str::parse::<i32>`,
    the `Display` rendering of an `i32`, and the truncating cast `usize as i32`. */
module Numbers {
  import opened Wrappers

  const I32Min: int := -0x8000_0000
  const I32Max: int := 0x7FFF_FFFF
  const TwoTo32: int := 0x1_0000_0000

  predicate InI32(n: int)
  {
    I32Min <= n <= I32Max
  }

  predicate IsDigit(c: char)
  {
    '0' <= c <= '9'
  }

  predicate AllDigits(s: string)
  {
    forall i :: 0 <= i < |s| ==> IsDigit(s[i])
  }

  function DigitValue(c: char): (d: nat)
    requires IsDigit(c)
    ensures d < 10
  {
    c as int - '0' as int
  }

  function DigitChar(d: nat): (c: char)
    requires d < 10
    ensures IsDigit(c) && DigitValue(c) == d
  {
    ('0' as int + d) as char
  }

  /** The value of a string of decimal digits, most significant first. */
  function DecimalValue(s: string): nat
    requires AllDigits(s)
    decreases |s|
  {
    if |s| == 0 then 0 else 10 * DecimalValue(s[..|s| - 1]) + DigitValue(s[|s| - 1])
  }

  /** The text `str::parse::<i32>` accepts, ignoring the range: an optional
      `+` or `-` sign followed by at least one ASCII digit. */
  predicate I32Syntax(s: string)
  {
    |s| > 0 && (AllDigits(s) || (|s| > 1 && (s[0] == '+' || s[0] == '-') && AllDigits(s[1..])))
  }

  /** `s.parse::<i32>()` in base 10: an optional `+` or `-` sign followed by at
      least one ASCII digit, with the value inside the `i32` range; leading
      zeros are accepted. Every other input is an error (`None`). */
  function ParseI32(s: string): (r: Option<int>)
    ensures r.Some? ==> InI32(r.value)
    ensures r.Some? ==> I32Syntax(s) && exists i :: 0 <= i < |s| && IsDigit(s[i])
    ensures |s| > 0 && AllDigits(s) ==>
      r == (if DecimalValue(s) <= I32Max then Some(DecimalValue(s)) else None)
    ensures |s| > 1 && s[0] == '+' && AllDigits(s[1..]) ==>
      r == (if DecimalValue(s[1..]) <= I32Max then Some(DecimalValue(s[1..])) else None)
    ensures |s| > 1 && s[0] == '-' && AllDigits(s[1..]) ==>
      r == (if DecimalValue(s[1..]) <= -I32Min then Some(-(DecimalValue(s[1..]) as int)) else None)
  {
    if |s| == 0 then None
    else if (s[0] == '+' || s[0] == '-') && |s| == 1 then None
    else
      var digits := if s[0] == '+' || s[0] == '-' then s[1..] else s;
      if !AllDigits(digits) then None
      else
        var magnitude: int := DecimalValue(digits);
        var v: int := if s[0] == '-' then -magnitude else magnitude;
        if InI32(v) then
          assert IsDigit(s[|s| - 1]);
          Some(v)
        else None
  }

  /** The decimal rendering of a natural number, without leading zeros. */
  function FormatNat(n: nat): (s: string)
    ensures |s| >= 1 && AllDigits(s)
    ensures DecimalValue(s) == n
    ensures s[0] == '0' ==> n == 0
    decreases n
  {
    if n < 10 then [DigitChar(n)]
    else
      var prefix := FormatNat(n / 10);
      var s := prefix + [DigitChar(n % 10)];
      assert s[..|s| - 1] == prefix;
      s
  }

  /** Rust's `Display` for an integer: a `-` before the digits of a negative
      number, the plain digits otherwise. */
  function FormatInt(n: int): (s: string)
    ensures |s| >= 1
    ensures s[0] == '-' <==> n < 0
    ensures s[0] == '0' ==> n == 0
    ensures n < 0 ==> |s| >= 2 && s[1] != '0'
    ensures forall i :: 0 <= i < |s| ==> IsDigit(s[i]) || (i == 0 && s[i] == '-')
  {
    if n < 0 then "-" + FormatNat(-n) else FormatNat(n)
  }

  /** Parsing the rendering of an `i32` gives the number back. */
  lemma ParseFormatRoundTrip(n: int)
    requires InI32(n)
    ensures ParseI32(FormatInt(n)) == Some(n)
  {
    if n < 0 {
      var s := FormatInt(n);
      assert s[1..] == FormatNat(-n);
    } else {
      var s := FormatInt(n);
      assert IsDigit(s[0]);
    }
  }

  /** A sign is optional and leading zeros are accepted; a sign alone, an
      empty string and a digit after a letter are rejected. */
  lemma ParseI32Examples(plus: string, zeros: string, sign: string, mixed: string)
    requires plus == "+7" && zeros == "007" && sign == "-" && mixed == "x7"
    ensures ParseI32(plus) == Some(7) && ParseI32(zeros) == Some(7)
    ensures ParseI32(sign) == None && ParseI32("") == None && ParseI32(mixed) == None
  {
    assert plus[1..] == "7" && DecimalValue("7") == 7;
    DecimalValueSnoc("0", '0');
    DecimalValueSnoc("00", '7');
    assert "00" + ['7'] == zeros;
    assert !IsDigit(mixed[0]);
  }

  /** Appending a digit multiplies the value by ten and adds the digit. */
  lemma DecimalValueSnoc(s: string, c: char)
    requires AllDigits(s) && IsDigit(c)
    ensures AllDigits(s + [c]) && DecimalValue(s + [c]) == 10 * DecimalValue(s) + DigitValue(c)
  {
    assert (s + [c])[..|s|] == s;
  }

  /** A rendered integer holds no character other than digits and `-`. */
  lemma FormatIntAvoids(n: int, c: char)
    requires !IsDigit(c) && c != '-'
    ensures c !in FormatInt(n)
  {
  }

  /** `n as i32` for a non-negative `usize` `n`: the low 32 bits of `n`, read
      as a two's-complement number. */
  function WrapI32(n: nat): (r: int)
    ensures InI32(r)
    ensures (n - r) % TwoTo32 == 0
    ensures InI32(n) ==> r == n
  {
    var m := n % TwoTo32;
    if m > I32Max then m - TwoTo32 else m
  }
}

=== FILE: store.dfy ===
/** The `images` table: rows `(id, image_data, mimetype)` keyed by `id`. */
module Store {
  import opened Wrappers
  import opened Text

  newtype Byte = b: int | 0 <= b < 256
  type Bytes = seq<Byte>

  /** A stored row; `mimetype` is `None` when the column cannot be read as text. */
  datatype Row = Row(data: Bytes, mimetype: Option<string>)

  type Table = map<string, Row>

  /** Rows that the upload handler can have written: a non-empty payload and a
      readable mimetype starting with `image/`. */
  predicate WellFormedRow(row: Row)
  {
    |row.data| > 0 && row.mimetype.Some? && StartsWith(row.mimetype.value, "image/")
  }

  predicate WellFormedTable(t: Table)
  {
    forall id :: id in t ==> WellFormedRow(t[id])
  }

  /** `INSERT INTO images`: fails when the database reports an error (`fault`)
      or when the id is already taken; otherwise adds exactly that row. */
  function Insert(t: Table, id: string, row: Row, fault: bool): (r: Option<Table>)
    ensures r.Some? <==> !fault && id !in t
    ensures r.Some? ==> id in r.value && r.value[id] == row
    ensures r.Some? ==> r.value.Keys == t.Keys + {id}
    ensures r.Some? ==> forall k :: k in t ==> r.value[k] == t[k]
  {
    if fault || id in t then None else Some(t[id := row])
  }

  /** `DELETE FROM images WHERE id = ...`: removes the row if there is one and
      leaves every other row alone. */
  function Remove(t: Table, id: string): (r: Table)
    ensures id !in r
    ensures r.Keys == t.Keys - {id}
    ensures forall k :: k in r ==> r[k] == t[k]
  {
    t - {id}
  }
}

=== FILE: text.dfy ===
/** The string operations the handlers rely on, with Rust's `str` semantics:
    `split` by a single character, `contains` of a substring and `starts_with`. */
module Text {

  /** Number of occurrences of `c` in `s`. */
  function Count(s: string, c: char): nat
    decreases |s|
  {
    if |s| == 0 then 0 else (if s[0] == c then 1 else 0) + Count(s[1..], c)
  }

  lemma {:induction false} CountAppend(a: string, b: string, c: char)
    ensures Count(a + b, c) == Count(a, c) + Count(b, c)
    decreases |a|
  {
    if |a| == 0 {
      assert a + b == b;
    } else {
      assert (a + b)[1..] == a[1..] + b;
      CountAppend(a[1..], b, c);
    }
  }

  lemma {:induction false} CountZero(s: string, c: char)
    ensures Count(s, c) == 0 <==> c !in s
    decreases |s|
  {
    if |s| > 0 {
      CountZero(s[1..], c);
      assert s == [s[0]] + s[1..];
    }
  }

  /** Position of the first occurrence of `c` in `s`. */
  function IndexOf(s: string, c: char): (i: nat)
    requires c in s
    ensures i < |s| && s[i] == c && c !in s[..i]
    decreases |s|
  {
    if s[0] == c then 0
    else
      assert c in s[1..] by { assert s == [s[0]] + s[1..]; }
      var j := IndexOf(s[1..], c);
      assert s[..j + 1] == [s[0]] + s[1..][..j];
      j + 1
  }

  /** The first occurrence is the only position before which `c` does not occur. */
  lemma IndexOfUnique(s: string, c: char, j: nat)
    requires j < |s| && s[j] == c && c !in s[..j]
    ensures IndexOf(s, c) == j
  {
    var i := IndexOf(s, c);
  }

  /** Glues the pieces back together with `c` between consecutive pieces. */
  function Join(parts: seq<string>, c: char): string
    requires |parts| >= 1
    decreases |parts|
  {
    if |parts| == 1 then parts[0] else parts[0] + [c] + Join(parts[1..], c)
  }

  /** Rust's `s.split(c).collect::<Vec<&str>>()`: the maximal pieces of `s`
      between occurrences of `c`; there is always at least one piece, and one
      more piece than there are occurrences of `c`. */
  function Split(s: string, c: char): (parts: seq<string>)
    ensures |parts| == Count(s, c) + 1
    ensures forall i :: 0 <= i < |parts| ==> c !in parts[i]
    ensures Join(parts, c) == s
    decreases |s|
  {
    if c !in s then
      CountZero(s, c);
      [s]
    else
      var i := IndexOf(s, c);
      var rest := Split(s[i + 1..], c);
      assert s == s[..i] + [c] + s[i + 1..];
      CountAppend(s[..i] + [c], s[i + 1..], c);
      CountAppend(s[..i], [c], c);
      CountZero(s[..i], c);
      assert ([s[..i]] + rest)[1..] == rest;
      [s[..i]] + rest
  }

  /** Splitting undoes joining, provided no piece contains the separator. */
  lemma {:induction false} SplitJoin(parts: seq<string>, c: char)
    requires |parts| >= 1
    requires forall i :: 0 <= i < |parts| ==> c !in parts[i]
    ensures Split(Join(parts, c), c) == parts
    decreases |parts|
  {
    if |parts| > 1 {
      var s := Join(parts, c);
      var p := parts[0];
      assert s == p + [c] + Join(parts[1..], c);
      assert s[|p|] == c;
      assert s[..|p|] == p;
      IndexOfUnique(s, c, |p|);
      assert s[|p| + 1..] == Join(parts[1..], c);
      SplitJoin(parts[1..], c);
      assert parts == [p] + parts[1..];
    }
  }

  /** A leading piece free of `c` is the first piece of the split. */
  lemma SplitCons(a: string, c: char, rest: string)
    requires c !in a
    ensures Split(a + [c] + rest, c) == [a] + Split(rest, c)
  {
    var s := a + [c] + rest;
    assert s[|a|] == c;
    assert s[..|a|] == a;
    IndexOfUnique(s, c, |a|);
    assert s[|a| + 1..] == rest;
  }

  /** The text before the first `c`: `s.split(c).collect::<Vec<&str>>()[0]`. */
  function FirstSegment(s: string, c: char): string
  {
    Split(s, c)[0]
  }

  /** `FirstSegment` is the longest prefix free of `c`. */
  lemma FirstSegmentIsPrefix(s: string, c: char)
    ensures var f := FirstSegment(s, c);
      && c !in f
      && f <= s
      && (|f| < |s| ==> s[|f|] == c)
  {
    if c in s {
      var i := IndexOf(s, c);
      assert FirstSegment(s, c) == s[..i];
    }
  }

  /** A name with no `c` in it is recovered from `name + c + rest`. */
  lemma FirstSegmentOfJoined(name: string, c: char, rest: string)
    requires c !in name
    ensures FirstSegment(name + [c] + rest, c) == name
  {
    var s := name + [c] + rest;
    assert s[|name|] == c;
    assert s[..|name|] == name;
    IndexOfUnique(s, c, |name|);
  }

  /** `FirstSegment` leaves a name without `c` unchanged. */
  lemma FirstSegmentOfPlain(name: string, c: char)
    requires c !in name
    ensures FirstSegment(name, c) == name
  {
  }

  /** The second piece of a split: the text after the first `c`, up to the
      next `c`. */
  lemma SecondSegment(s: string, c: char)
    requires c in s
    ensures |Split(s, c)| >= 2
    ensures |FirstSegment(s, c)| < |s|
    ensures Split(s, c)[1] == FirstSegment(s[|FirstSegment(s, c)| + 1..], c)
  {
    CountZero(s, c);
    var i := IndexOf(s, c);
    assert FirstSegment(s, c) == s[..i];
  }

  /** The parts of `open + v + sep + rest`, where `sep` starts with a character
      `v` avoids: the text after `open` reads `v` back up to that character,
      `sep + rest` follows `v`, and `rest` ends the whole. */
  lemma Delimited(open: string, v: string, sep: string, rest: string)
    requires |sep| > 0
    ensures var r := open + v + sep + rest;
      && StartsWith(r, open)
      && r[|open|..|open| + |v|] == v
      && r[|open| + |v|..] == sep + rest
      && r[|r| - |rest|..] == rest
      && (sep[0] !in v ==> FirstSegment(r[|open|..], sep[0]) == v)
  {
    var r := open + v + sep + rest;
    assert r[|open|..] == v + [sep[0]] + (sep[1..] + rest);
    if sep[0] !in v {
      FirstSegmentOfJoined(v, sep[0], sep[1..] + rest);
    }
  }

  /** Rust's `s.starts_with(prefix)`. */
  predicate StartsWith(s: string, prefix: string)
    ensures StartsWith(s, prefix) <==> prefix <= s
  {
    |prefix| <= |s| && s[..|prefix|] == prefix
  }

  /** `sub` occurs in `s` starting at position `i`. */
  ghost predicate OccursAt(s: string, sub: string, i: nat)
  {
    i + |sub| <= |s| && s[i..i + |sub|] == sub
  }

  /** Rust's `s.contains(sub)`: some window of `s` equals `sub`. */
  function Contains(s: string, sub: string): (r: bool)
    ensures r <==> exists i: nat :: OccursAt(s, sub, i)
    decreases |s|
  {
    if StartsWith(s, sub) then
      assert OccursAt(s, sub, 0);
      true
    else if |s| == 0 then
      assert forall i: nat :: !OccursAt(s, sub, i);
      false
    else
      var r := Contains(s[1..], sub);
      if r then
        assert exists j: nat :: OccursAt(s, sub, j) by {
          var i: nat :| OccursAt(s[1..], sub, i);
          assert s[i + 1..i + 1 + |sub|] == s[1..][i..i + |sub|];
          assert OccursAt(s, sub, i + 1);
        }
        true
      else
        assert forall i: nat :: OccursAt(s, sub, i) ==> i > 0 && OccursAt(s[1..], sub, i - 1) by {
          forall i: nat | OccursAt(s, sub, i)
            ensures i > 0 && OccursAt(s[1..], sub, i - 1)
          {
            if i > 0 {
              assert s[1..][i - 1..i - 1 + |sub|] == s[i..i + |sub|];
            }
          }
        }
        false
  }

  /** The middle of a concatenation occurs in it. */
  lemma ContainsMiddle(a: string, b: string, c: string)
    ensures Contains(a + b + c, b)
  {
    assert OccursAt(a + b + c, b, |a|) by {
      assert (a + b + c)[|a|..|a| + |b|] == b;
    }
  }
}

=== FILE: wrappers.dfy ===
/** Small failure-carrying datatypes shared by every module of the model. */
module Wrappers {

  /** An optional value, as Rust's `Option`. */
  datatype Option<+T> = None | Some(value: T)

  /** The outcome of a Rocket request guard: the guard succeeds with a value,
      forwards the request to the next matching route, or fails with an HTTP
      status and an error value. */
  datatype Outcome<+T, +E> = Success(value: T) | Forward | Failure(status: int, error: E)
}
